=== FILE: README.md ===
# web-scraping-template extraction pipeline, in Dafny

This project models the extraction pipeline of the `WebScraper` class
(`web_scraping_template/scraper_template.py`) and of the example product-page strategy
`custom_ecommerce_extract` (`examples/custom_function_example.py`). It then proves
properties of the model. The pipeline turns a configuration dictionary into page
interactions and a result shape. It has five parts:

- the dispatcher `extract`: a custom function, or the standard path;
- the standard extractor: navigate, wait, optionally scroll, read the fields, optionally
  paginate;
- the bounded scroll loop;
- the pagination loop;
- the output formatter.

It also models the two custom strategies shipped with the scraper, `infinite_scroll_extract`
and `login_extract`.

The browser is an oracle, `Driver.Page`. Each of its answers is a total function of the
trace of actions issued so far: `Goto`, `Wait(ms)`, `ScrollToBottom`, `Click`, `Fill`.
Waits and scrolls can therefore change what later queries see, as they do on a real
page. Queries are answered against the current trace and are not recorded in it. Every
driver call can raise (`Reply.Raised`). Each operation returns a `Run`: its result or
the error it raised, together with the trace it left behind.

Modules, one per concern:

| file | module | models |
|---|---|---|
| wrappers.dfy | Wrappers | `Option`, `Result`, the three exceptions that can escape |
| text.dfy | Text | `str.strip()` (Python's whitespace set), ASCII `str.lower()` |
| dicts.dfy | Dicts | insertion-ordered dictionaries, the `for key, sel in d.items()` loop |
| driver.dfy | Driver | the page oracle, action traces, straight-line runs of actions |
| config.dfy | Configuration | the configuration keys and their defaults |
| fields.dfy | Fields | first-page and later-page field shaping, the field loops |
| format.dfy | Formatting | `_format_output` |
| scroll.dfy | Scrolling | `_handle_infinite_scroll` |
| pagination.dfy | Pagination | `_handle_multi_page` |
| scraper.dfy | Scraper | `_standard_extract`, `extract` |
| strategies.dfy | Strategies | `infinite_scroll_extract`, `login_extract` |
| ecommerce.dfy | Ecommerce | `custom_ecommerce_extract` |

Behaviours of the code a reader may not expect:

- No up-front configuration check exists. A missing `url` raises `KeyError` only when it
  is read. A missing `pagination_selector` is handed to the page as `None`, and what the
  page finds for it decides whether pagination goes on; when it finds nothing or raises,
  only the first page comes back.
- A selector with zero matches gives `[]`, not `""`. Only exactly one match gives a
  single string.
- A raising scroll step is not recovered. `_handle_infinite_scroll` has no `try`, so the
  error escapes the whole run.
- The first-page record is kept in a multi-page result only when it is non-empty. When
  `max_pages` is below 1 the loop never runs, so the result can hold one record more than
  `max_pages`.
- The return value of a custom function is returned as it is. `extract` does not format
  it; the shipped strategies call the formatter themselves.

## Model

| member | source | states |
|---|---|---|
| Text.Strip | web_scraping_template/scraper_template.py:112 | `strip()` returns a contiguous piece of its input with no whitespace at either end, and removes only whitespace |
| Text.StripUnique | web_scraping_template/scraper_template.py:112 | leading whitespace, then a piece with no whitespace at its ends, then trailing whitespace: `strip()` returns exactly that piece |
| Text.StripIdempotent | web_scraping_template/scraper_template.py:118 | stripping an already stripped text changes nothing |
| Dicts.MapValues | web_scraping_template/scraper_template.py:106-124 | the field loop yields one entry per selector: same keys, same insertion order, each value computed from its own selector |
| Dicts.MapValuesDistinct | web_scraping_template/scraper_template.py:106-124 | distinct selector names give distinct record keys, so each assignment of the loop adds a new entry |
| Driver.Perform | web_scraping_template/scraper_template.py:98-99 | awaited page calls in sequence: the trace grows by a prefix of the actions; a success has issued all of them; a failure has issued at least one and is a driver error |
| Driver.PerformPassed | web_scraping_template/scraper_template.py:98-99 | on success every issued action went through |
| Driver.PerformRaised | web_scraping_template/scraper_template.py:98-99 | on failure the last issued action is the one that raised, and its message is the error |
| Driver.PerformPassedBefore | web_scraping_template/scraper_template.py:98-99 | on failure every action before the raising one went through |
| Driver.PerformSucceeds | web_scraping_template/scraper_template.py:98-99 | conversely, if no action raises, all are issued and the run succeeds |
| Driver.PerformAppend | web_scraping_template/scraper_template.py:97-103 | running two action sequences in turn is running them joined: the second starts only if the first went through, from where it ended |
| Driver.PerformIgnoresContent | web_scraping_template/scraper_template.py:97-103 | a run depends only on which actions raise, not on what the page shows |
| Fields.TextOrEmpty | web_scraping_template/scraper_template.py:112 | a missing or empty text reads as "", any other text is stripped |
| Fields.KeptTexts | web_scraping_template/scraper_template.py:114-119 | the list holds, entry for entry, the stripped form of each non-empty raw text collected by `Present`; no more entries than matches, each stripped |
| Fields.KeptTextsAppend | web_scraping_template/scraper_template.py:114-119 | the list follows DOM order: the kept texts of two runs of matches are those of the first run, then those of the second |
| Fields.BlankKeptAsEmpty | web_scraping_template/scraper_template.py:115-118 | a non-empty whitespace-only text is kept, as "" at its own place |
| Fields.NoTextDropped | web_scraping_template/scraper_template.py:115-118 | a match without text, or with the empty text, adds nothing |
| Fields.PresentAppend | web_scraping_template/scraper_template.py:115-118 | collecting keeps DOM order: collecting two runs of matches in turn gives the concatenation |
| Fields.PresentMembership | web_scraping_template/scraper_template.py:115-118 | a text is collected if and only if some match carries it as a non-empty text |
| Fields.PresentKeepsAll | web_scraping_template/scraper_template.py:115-118 | when every match has a non-empty text, the list keeps all of them in order |
| Fields.ShapeFirst | web_scraping_template/scraper_template.py:108-124 | exactly one match gives a single stripped string ("" for missing or empty text). Any other count gives the list of kept texts, so zero matches give []. A raising query gives "". The value is never None |
| Fields.ShapeLater | web_scraping_template/scraper_template.py:177-187 | later pages always give a list, even for one match: the kept texts, or [] when the query raised |
| Fields.ShapesAgreeBeyondOneMatch | web_scraping_template/scraper_template.py:171-189 | first-page and later-page shaping differ exactly on a raising query or a single match |
| Fields.ExtractFields | web_scraping_template/scraper_template.py:106-124 | the first-page record has exactly the keys of `selectors`, in order. Each field is the first-page shape of its own query, so one raising field leaves the others intact |
| Fields.ExtractPageData | web_scraping_template/scraper_template.py:171-189 | a later-page record has exactly the keys of `selectors`, and every value is the later-page shape of its query |
| Fields.ThreeQuotes | web_scraping_template/scraper_template.py:107-119 | three matches " A ", " B ", "C" give the list ["A", "B", "C"] (for any non-empty stripped A, B, C) |
| Formatting.FormatOutput | web_scraping_template/scraper_template.py:191-215 | lower-cased "json" returns the data unchanged; "csv" and "excel" give the table of rows; anything else raises an error whose message ends with the requested format as given |
| Formatting.FormatIgnoresCase | web_scraping_template/scraper_template.py:202-209 | two format names with the same lower-case form are accepted alike and give the same output |
| Formatting.JsonRoundTrip | web_scraping_template/scraper_template.py:202-203 | every spelling of "json" hands the extracted data back unchanged |
| Formatting.FormatExamples | web_scraping_template/scraper_template.py:202-215 | "JSON", "Csv" and "EXCEL" are accepted; "bogus" raises "Unsupported output format: bogus" |
| Scrolling.ScrollLoop | web_scraping_template/scraper_template.py:132-140 | a successful loop issues exactly `max_scrolls` scroll-then-wait pairs (none when not positive); a raising step ends it with a driver error and a trace that is a prefix of those pairs |
| Scrolling.ScrollLoopCompletes | web_scraping_template/scraper_template.py:137-139 | if no scroll or wait raises, all turns happen: there is no early exit |
| Scrolling.ScrollIgnoresContent | web_scraping_template/scraper_template.py:137-139 | page content has no influence on the loop: pages that accept the same actions scroll identically |
| Pagination.LaterPages | web_scraping_template/scraper_template.py:151-167 | at most one page per remaining page number; the trace holds one click-and-wait turn per collected page and at most one turn begun beyond them. Nothing raises |
| Pagination.LaterPagesRead | web_scraping_template/scraper_template.py:151-164 | page k is read after k+1 click-and-wait turns, and every turn up to it went through |
| Pagination.LaterPagesStop | web_scraping_template/scraper_template.py:153-167 | an early stop happens exactly at the first turn whose button is missing or whose query, click or wait raises |
| Pagination.HandleMultiPage | web_scraping_template/scraper_template.py:146-169 | a non-empty first-page record comes first. At most `max_pages` records (one when `max_pages` is below 1) |
| Pagination.MultiPageRead | web_scraping_template/scraper_template.py:148-164 | an empty first-page record is dropped; every later record is a later page in visit order, the j-th read after j+1 turns |
| Pagination.MultiPageKeys | web_scraping_template/scraper_template.py:146-189 | every record of a multi-page result has the keys of `selectors` |
| Pagination.MultiPageStop | web_scraping_template/scraper_template.py:146-169 | pagination ends early only at the first turn whose next button is missing or whose query, click or wait raises; the pages collected so far come back |
| Pagination.StopsWhenButtonMissing | web_scraping_template/scraper_template.py:154-156 | with `max_pages` 3 and a next button present once, then missing, exactly the first and second pages come back |
| Pagination.NoButtonKeepsSeed | web_scraping_template/scraper_template.py:146-169 | when the next button is not found at the start, or its query raises, only the kept first-page record comes back and nothing is issued; this covers an absent `pagination_selector` whenever the page answers it so |
| Scraper.Navigate | web_scraping_template/scraper_template.py:97-103 | goto is always issued; a success has issued goto, the `wait_time` wait and, when `infinite_scroll` is set, all scroll turns; a failure is a driver error within that sequence |
| Scraper.NavigateIsPerform | web_scraping_template/scraper_template.py:97-103 | navigation followed by the scroll loop is the straight run of the whole settle sequence |
| Scraper.Collect | web_scraping_template/scraper_template.py:105-128 | no error is raised. Every record has exactly the keys of `selectors`. Without `multi_page`: one record, read at the settled page. With it: exactly the pages the pagination handler collects from the settled page, seeded with the first-page record; at most `max_pages` records (one when `max_pages` is below 1), the first-page record first when `selectors` is non-empty |
| Scraper.StandardExtract | web_scraping_template/scraper_template.py:83-130 | a missing url raises before any action, otherwise goto is issued. The result is raw exactly for "json". Without `multi_page` the one record is read right after goto, wait and all scroll turns |
| Scraper.StandardExtractErrors | web_scraping_template/scraper_template.py:83-130 | a driver error leaves a trace within the settle sequence; any other error is the unsupported format, raised after settling; a success has settled |
| Scraper.StandardExtractSucceeds | web_scraping_template/scraper_template.py:83-130 | with a url, the run succeeds exactly when every settle action goes through and the format is json, csv or excel. A failing settle action gives a driver error. Once settling went through, the only error is the unsupported format, so no field query fails the run |
| Scraper.StandardExtractRecords | web_scraping_template/scraper_template.py:105-130 | every record has exactly the keys of `selectors`; with `multi_page` at most `max_pages` records (one when `max_pages` is below 1), the first-page record first when `selectors` is non-empty |
| Scraper.StandardExtractPaginates | web_scraping_template/scraper_template.py:105-130 | with `multi_page`, the rows of a success are exactly the pages `_handle_multi_page` collects from the settled page, seeded with its first-page record, and the run ends where pagination ended |
| Scraper.Extract | web_scraping_template/scraper_template.py:72-81 | with a custom function, the result and any error are that function's, and the standard path is not taken; otherwise the standard path runs |
| Strategies.ScopedText | web_scraping_template/scraper_template.py:289-298 | an item field is the first scoped match's stripped text; "" when the element is missing, its text is missing or empty, or the query raised |
| Strategies.ItemRecord | web_scraping_template/scraper_template.py:287-299 | an item record has exactly the keys of `item_selectors`, in order, each the scoped text of its own selector |
| Strategies.InfiniteScrollExtract | web_scraping_template/scraper_template.py:258-301 | goto without a settle wait, then exactly the scroll turns. Then one record per item root under `item_selector` (default "div.item"), in DOM order. A driver error leaves a trace within goto and the scroll turns |
| Strategies.InfiniteScrollSucceeds | web_scraping_template/scraper_template.py:258-301 | with a url, the run succeeds exactly when goto and every scroll action go through, the item-root query answers and the format is json, csv or excel, whatever the field queries do. A failing goto or scroll action gives a driver error |
| Strategies.LoginSteps | web_scraping_template/scraper_template.py:316-332 | the login actions are issued exactly when a non-empty `login` entry has a non-empty user name and password |
| Strategies.LoginExtract | web_scraping_template/scraper_template.py:304-335 | if goto and all login actions go through, the result is the standard path run from the logged-in page; otherwise a driver error escapes and the standard path never runs |
| Strategies.LoginWithoutCredentials | web_scraping_template/scraper_template.py:315-335 | dispatching to `login_extract` without credentials gives the standard path after one extra page visit |
| Ecommerce.OptionalValue | examples/custom_function_example.py:35-56 | title, price or description: absent when the element is missing; the text as returned, unstripped (None included), when found; "" when the query raised |
| Ecommerce.ProductRecord | examples/custom_function_example.py:32-80 | each key's value follows its own query. `images` are the non-empty `src` values, unstripped; `reviews` are the kept texts; both are [] when their query raised. The keys are exactly the present ones of title, price and description, then `images` and `reviews`, in that order |
| Ecommerce.CustomEcommerceExtract | examples/custom_function_example.py:19-82 | goto, then wait 2000 ms, then only queries. The single product record is read on the settled page. The output format is checked last |
| Ecommerce.CustomEcommerceSucceeds | examples/custom_function_example.py:19-82 | with a url, the run succeeds exactly when goto and the 2000 ms wait go through and the format is json, csv or excel. An unknown format raises once the page has settled; a failing goto or wait gives a driver error |

## Left out

- Browser lifecycle (`start`, `stop`, `__aenter__`/`__aexit__`): this is process
  management of the browser. The page is a given oracle.
- `save_data`, `take_screenshot` and `main`: file I/O, serialisation and YAML loading.
- `install.py`, `setup.py` and the example scripts other than
  `custom_ecommerce_extract`: they hold configuration literals and I/O only.
- Formatting.FormatOutput: a csv or excel result is modelled as the list of rows given to
  the data frame. Column union, NaN filling and the rest of pandas are not modelled.
- async scheduling and real time: the flow is sequential, and waits are trace events.
- Logging calls: they are side effects only.
- Text.Lower: lower-cases ASCII letters only, which is enough to compare with "json", "csv"
  and "excel"; Python's full Unicode lower-casing is not modelled.
- Driver.Page: queries are assumed not to change the page. An exception from
  `text_content()` or `get_attribute()` partway through the matches is folded into the
  query raising; both end the same `try` block.
- Configuration values are modelled with the types the code expects: strings, integers
  and booleans. A value of another type is not modelled (for example, a non-string
  `output_format` fails at `.lower()`), and neither is a key present with value None.
  `login` is absent or a non-empty dictionary.
- Scraper.Extract: a custom function returns a formatted output in this model, as all
  shipped strategies do. A Python custom function may return any value.
- Dicts: dictionaries are association lists, and distinct keys of the configuration's
  `selectors` are not enforced by the type. `MapValuesDistinct` carries distinctness from
  the configuration to the record when it holds.

=== FILE: config.dfy ===
/** The configuration dictionary that drives one extraction run. */
module Configuration {
  import opened Wrappers
  import opened Dicts

  /** A non-empty `login` entry; each key may be missing. */
  datatype Login = Login(
    username: Option<string>,
    password: Option<string>,
    usernameSelector: Option<string>,
    passwordSelector: Option<string>,
    submitSelector: Option<string>)

  /** The keys the scraper reads. `None` is a key that is absent; the functions below apply
      the defaults `config.get(key, default)` falls back to. There is no up-front validation:
      any combination is a configuration. `login` is `None` when absent or empty. */
  datatype Config = Config(
    url: Option<string>,
    selectors: Dict<string>,
    waitTime: Option<int>,
    infiniteScroll: bool,
    maxScrolls: Option<int>,
    scrollDelay: Option<int>,
    multiPage: bool,
    paginationSelector: Option<string>,
    maxPages: Option<int>,
    itemSelector: Option<string>,
    itemSelectors: Dict<string>,
    outputFormat: Option<string>,
    login: Option<Login>)

  const DefaultWaitTime := 2000
  const DefaultMaxScrolls := 10
  const DefaultScrollDelay := 2000
  const DefaultMaxPages := 5
  const DefaultItemSelector := "div.item"
  const DefaultFormat := "json"

  function WaitTime(c: Config): int { c.waitTime.GetOr(DefaultWaitTime) }
  function MaxScrolls(c: Config): int { c.maxScrolls.GetOr(DefaultMaxScrolls) }
  function ScrollDelay(c: Config): int { c.scrollDelay.GetOr(DefaultScrollDelay) }
  function MaxPages(c: Config): int { c.maxPages.GetOr(DefaultMaxPages) }
  function ItemSelector(c: Config): string { c.itemSelector.GetOr(DefaultItemSelector) }
  function OutputFormat(c: Config): string { c.outputFormat.GetOr(DefaultFormat) }
}

=== FILE: dicts.dfy ===
/** Python dictionaries with insertion order, as association lists. */
module Dicts {
  import opened Wrappers

  /** Entries in insertion order. A dictionary built by the scraper has distinct keys. */
  type Dict<V> = seq<(string, V)>

  function Keys<V>(d: Dict<V>): seq<string> {
    seq(|d|, i requires 0 <= i < |d| => d[i].0)
  }

  predicate DistinctKeys<V>(d: Dict<V>) {
    forall i, j :: 0 <= i < j < |d| ==> d[i].0 != d[j].0
  }

  /** `d.get(k)`: the value of the entry with key `k`, if any. */
  function Get<V>(d: Dict<V>, k: string): (r: Option<V>)
    ensures r.Some? <==> k in Keys(d)
  {
    if d == [] then None
    else if d[0].0 == k then (assert Keys(d)[0] == k; Some(d[0].1))
    else (assert Keys(d) == [d[0].0] + Keys(d[1..]); Get(d[1..], k))
  }

  /** The loop `for key, x in d.items(): out[key] = f(x)` of a fresh dictionary `out`:
      one entry per entry of `d`, same keys in the same order, each value transformed. */
  function MapValues<U, V>(d: Dict<U>, f: U -> V): (r: Dict<V>)
    ensures |r| == |d|
    ensures forall i :: 0 <= i < |d| ==> r[i] == (d[i].0, f(d[i].1))
    ensures Keys(r) == Keys(d)
  {
    if d == [] then []
    else
      var rest := MapValues(d[1..], f);
      var r := [(d[0].0, f(d[0].1))] + rest;
      assert forall i | 0 < i < |r| :: r[i] == rest[i - 1] && d[i] == d[1..][i - 1];
      r
  }

  /** Transforming the values keeps the keys distinct, so each `out[key] = ...` of the loop
      adds a new entry and appending models it. */
  lemma MapValuesDistinct<U, V>(d: Dict<U>, f: U -> V)
    requires DistinctKeys(d)
    ensures DistinctKeys(MapValues(d, f))
  {
    var r := MapValues(d, f);
    forall i, j | 0 <= i < j < |r|
      ensures r[i].0 != r[j].0
    {
      assert r[i].0 == Keys(r)[i] == Keys(d)[i] == d[i].0;
      assert r[j].0 == Keys(r)[j] == Keys(d)[j] == d[j].0;
    }
  }

  /** Looking up a key in a concatenation looks in the first part first. */
  lemma {:induction false} GetAppend<V>(a: Dict<V>, b: Dict<V>, k: string)
    ensures Get(a + b, k) == if k in Keys(a) then Get(a, k) else Get(b, k)
    decreases |a|
  {
    if a == [] {
      assert a + b == b;
    } else {
      assert Keys(a) == [a[0].0] + Keys(a[1..]);
      assert (a + b)[0] == a[0];
      assert (a + b)[1..] == a[1..] + b;
      GetAppend(a[1..], b, k);
    }
  }
}

=== FILE: driver.dfy ===
/** The browser page the scraper drives, as an oracle, and the trace of actions it receives. */
module Driver {
  import opened Wrappers

  /** The page interactions that change what the page shows. A click or fill names the
      selector its element was found by; that selector may be missing (`None`). */
  datatype Action =
    | Goto(url: string)
    | Wait(ms: int)
    | ScrollToBottom
    | Click(target: Option<string>)
    | Fill(target: Option<string>, text: string)

  /** Every action issued to the page so far, oldest first, including one that raised. */
  type Trace = seq<Action>

  /** The text content of each match of a query, in DOM order (`None` when an element has none). */
  type Texts = seq<Option<string>>

  /** A driver call either answers or raises an error with a message. */
  datatype Reply<+T> = Got(value: T) | Raised(message: string)

  /** The page as an oracle. What it shows depends only on the actions issued so far, so
      every answer is a function of the trace; queries do not change the page.
      - `perform`: whether issuing an action raises;
      - `queryAll(t, sel)`: `query_selector_all(sel)` then `text_content()` of each match;
      - `queryFirst(t, sel)`: `query_selector(sel)`: no element, or the first match's text;
      - `attributeAll(t, sel, name)`: `get_attribute(name)` of each match of `sel`;
      - `itemCount(t, sel)`: how many item roots `query_selector_all(sel)` finds;
      - `queryInItem(t, sel, i, field)`: `query_selector(field)` scoped to the i-th root. */
  datatype Page = Page(
    perform: (Trace, Action) -> Reply<()>,
    queryAll: (Trace, string) -> Reply<Texts>,
    queryFirst: (Trace, Option<string>) -> Reply<Option<Option<string>>>,
    attributeAll: (Trace, string, string) -> Reply<Texts>,
    itemCount: (Trace, string) -> Reply<nat>,
    queryInItem: (Trace, string, nat, string) -> Reply<Option<Option<string>>>)

  /** The outcome of an operation together with the trace the page received by its end. */
  datatype Run<+T> = Run(result: Result<T>, trace: Trace)

  predicate IsPrefix(p: Trace, t: Trace) {
    |p| <= |t| && t[..|p|] == p
  }

  lemma PrefixTrans(a: Trace, b: Trace, c: Trace)
    requires IsPrefix(a, b) && IsPrefix(b, c)
    ensures IsPrefix(a, c)
  {
    assert c[..|a|] == c[..|b|][..|a|];
  }

  /** Every action issued after the first `|start|` ones of `t` went through without raising. */
  predicate AllPassed(b: Page, start: Trace, t: Trace) {
    forall k :: |start| <= k < |t| ==> b.perform(t[..k], t[k]).Got?
  }

  /** Issue `actions` one after the other, stopping at the first one that raises: the meaning
      of a straight run of awaited page calls without a `try`. */
  function Perform(b: Page, t: Trace, actions: Trace): (r: Run<()>)
    ensures IsPrefix(t, r.trace) && IsPrefix(r.trace, t + actions)
    ensures r.result.Ok? ==> r.trace == t + actions
    ensures r.result.Err? ==> |t| < |r.trace| && r.result.error.DriverError?
    decreases |actions|
  {
    if actions == [] then
      Run(Ok(()), t)
    else
      var t1 := t + [actions[0]];
      assert t + actions == t1 + actions[1..];
      match b.perform(t, actions[0])
      case Raised(m) =>
        assert t1[..|t1| - 1] == t;
        Run(Err(DriverError(m)), t1)
      case Got(_) =>
        var r := Perform(b, t1, actions[1..]);
        assert r.trace[..|t|] == r.trace[..|t1|][..|t|];
        r
  }

  /** On success every issued action went through. */
  lemma {:induction false} PerformPassed(b: Page, t: Trace, actions: Trace)
    ensures var r := Perform(b, t, actions);
      r.result.Ok? ==> AllPassed(b, t, r.trace)
    decreases |actions|
  {
    var r := Perform(b, t, actions);
    if actions != [] && b.perform(t, actions[0]).Got? && r.result.Ok? {
      var t1 := t + [actions[0]];
      PerformPassed(b, t1, actions[1..]);
      assert r == Perform(b, t1, actions[1..]);
      AllPassedStep(b, t, actions[0], r.trace);
    }
  }

  /** On failure the last action issued is the one that raised, with the reported message. */
  lemma {:induction false} PerformRaised(b: Page, t: Trace, actions: Trace)
    ensures var r := Perform(b, t, actions);
      r.result.Err? ==>
        b.perform(r.trace[..|r.trace| - 1], r.trace[|r.trace| - 1]) == Raised(r.result.error.message)
    decreases |actions|
  {
    var r := Perform(b, t, actions);
    if actions != [] && r.result.Err? {
      var t1 := t + [actions[0]];
      var first := b.perform(t, actions[0]);
      if first.Raised? {
        assert r == Run(Err(DriverError(first.message)), t1);
        assert r.trace[..|r.trace| - 1] == t && r.trace[|r.trace| - 1] == actions[0];
        assert r.result.error.message == first.message;
      } else {
        PerformRaised(b, t1, actions[1..]);
        assert r == Perform(b, t1, actions[1..]);
      }
    }
  }

  /** On failure every action before the one that raised went through. */
  lemma {:induction false} PerformPassedBefore(b: Page, t: Trace, actions: Trace)
    ensures var r := Perform(b, t, actions);
      r.result.Err? ==> forall k :: |t| <= k < |r.trace| - 1 ==> b.perform(r.trace[..k], r.trace[k]).Got?
    decreases |actions|
  {
    var r := Perform(b, t, actions);
    if actions != [] && r.result.Err? && b.perform(t, actions[0]).Got? {
      var t1 := t + [actions[0]];
      PerformPassedBefore(b, t1, actions[1..]);
      assert r == Perform(b, t1, actions[1..]);
      assert r.trace[..|t|] == t && r.trace[|t|] == actions[0] by {
        assert r.trace[..|t|] == r.trace[..|t1|][..|t|];
      }
    }
  }

  /** An action that went through, followed by actions that all went through. */
  lemma AllPassedStep(b: Page, t: Trace, a: Action, x: Trace)
    requires b.perform(t, a).Got? && IsPrefix(t + [a], x) && AllPassed(b, t + [a], x)
    ensures AllPassed(b, t, x)
  {
    assert x[..|t|] == t && x[|t|] == a by {
      assert x[..|t|] == (t + [a])[..|t|];
    }
  }

  /** If no action raises, all of them are issued and the run succeeds. */
  lemma {:induction false} PerformSucceeds(b: Page, t: Trace, actions: Trace)
    requires AllPassed(b, t, t + actions)
    ensures Perform(b, t, actions) == Run(Ok(()), t + actions)
    decreases |actions|
  {
    if actions != [] {
      var all := t + actions;
      var t1 := t + [actions[0]];
      assert all[..|t|] == t && all[|t|] == actions[0];
      assert b.perform(all[..|t|], all[|t|]).Got?;
      assert all == t1 + actions[1..];
      PerformSucceeds(b, t1, actions[1..]);
    }
  }

  /** Only whether actions raise matters to a run: two pages that accept and refuse the same
      actions give the same run. */
  lemma {:induction false} PerformIgnoresContent(b1: Page, b2: Page, t: Trace, actions: Trace)
    requires b1.perform == b2.perform
    ensures Perform(b1, t, actions) == Perform(b2, t, actions)
    decreases |actions|
  {
    if actions != [] {
      PerformIgnoresContent(b1, b2, t + [actions[0]], actions[1..]);
    }
  }

  /** A non-empty run always issues its first action. */
  lemma PerformFirst(b: Page, t: Trace, actions: Trace)
    requires actions != []
    ensures IsPrefix(t + [actions[0]], Perform(b, t, actions).trace)
  {
    var t1 := t + [actions[0]];
    if b.perform(t, actions[0]).Got? {
      var r := Perform(b, t1, actions[1..]);
      assert r.trace[..|t1|] == t1;
    }
  }

  /** Running two action sequences one after the other is running them joined: the second
      starts only when the first went through, from where the first ended. */
  lemma {:induction false} PerformAppend(b: Page, t: Trace, xs: Trace, ys: Trace)
    ensures Perform(b, t, xs + ys)
      == var first := Perform(b, t, xs);
         if first.result.Err? then first else Perform(b, first.trace, ys)
    decreases |xs|
  {
    if xs == [] {
      assert xs + ys == ys;
    } else {
      assert (xs + ys)[0] == xs[0];
      assert (xs + ys)[1..] == xs[1..] + ys;
      PerformAppend(b, t + [xs[0]], xs[1..], ys);
    }
  }

  /** `first, second` repeated `k` times: the actions of a loop that issues two per turn. */
  function Pairs(first: Action, second: Action, k: nat): Trace {
    if k == 0 then [] else [first, second] + Pairs(first, second, k - 1)
  }

  /** How often `a` occurs in `t`. */
  function Count(t: Trace, a: Action): nat {
    if t == [] then 0 else (if t[0] == a then 1 else 0) + Count(t[1..], a)
  }

  /** `Pairs` alternates its two actions, starting with the first, `2k` actions in all. */
  lemma {:induction false} PairsShape(first: Action, second: Action, k: nat)
    ensures |Pairs(first, second, k)| == 2 * k
    ensures forall i :: 0 <= i < 2 * k ==>
      Pairs(first, second, k)[i] == if i % 2 == 0 then first else second
  {
    if k > 0 {
      PairsShape(first, second, k - 1);
      var p := Pairs(first, second, k);
      assert forall i | 2 <= i < 2 * k :: p[i] == Pairs(first, second, k - 1)[i - 2];
    }
  }

  /** With two different actions, `Pairs` holds exactly `k` copies of the first. */
  lemma {:induction false} CountPairs(first: Action, second: Action, k: nat)
    requires first != second
    ensures Count(Pairs(first, second, k), first) == k
  {
    if k > 0 {
      var p := Pairs(first, second, k);
      assert p[1..] == [second] + Pairs(first, second, k - 1);
      assert p[1..][1..] == Pairs(first, second, k - 1);
      CountPairs(first, second, k - 1);
    }
  }
}

=== FILE: ecommerce.dfy ===
/** `custom_ecommerce_extract`: a custom strategy for product pages, with shaping rules of its
    own. Optional fields are left out when their element is missing, and texts are stored
    as the page returns them, not stripped. */
module Ecommerce {
  import opened Wrappers
  import opened Text
  import opened Dicts
  import opened Driver
  import opened Configuration
  import opened Fields
  import opened Formatting
  import opened Scraper

  const TitleSelector := "h1.product-title"
  const PriceSelector := "span.price"
  const DescriptionSelector := "div.description"
  const ImageSelector := "img.product-image"
  const ReviewSelector := "div.review"

  /** The fixed wait after opening the product page. */
  const ProductSettle := 2000

  /** The position of each product key in insertion order. */
  function Rank(key: string): nat {
    if key == "title" then 0
    else if key == "price" then 1
    else if key == "description" then 2
    else if key == "images" then 3
    else if key == "reviews" then 4
    else 5
  }

  /** One optional product field: absent when the element is missing; the element's text as
      returned (Python `None` included) when it is found; "" when the query raised. */
  function OptionalValue(reply: Reply<Option<Option<string>>>): (v: Option<FieldValue>)
    ensures v.None? <==> reply == Got(None)
    ensures reply.Raised? ==> v == Some(Str(""))
    ensures reply.Got? && reply.value.Some? && reply.value.value.Some? ==>
      v == Some(Str(reply.value.value.value))
    ensures reply.Got? && reply.value.Some? && reply.value.value.None? ==> v == Some(Null)
  {
    match reply
    case Raised(_) => Some(Str(""))
    case Got(None) => None
    case Got(Some(None)) => Some(Null)
    case Got(Some(Some(text))) => Some(Str(text))
  }

  function Entry(key: string, v: Option<FieldValue>): Record {
    match v
    case Some(x) => [(key, x)]
    case None => []
  }

  /** The `src` attributes that are present and non-empty, in DOM order, unstripped; [] when
      the query raised. */
  function ImageSources(reply: Reply<Texts>): seq<string> {
    match reply
    case Raised(_) => []
    case Got(srcs) => Present(srcs)
  }

  /** The stripped texts of the reviews whose raw text is non-empty, in DOM order; [] when
      the query raised. */
  function ReviewTexts(reply: Reply<Texts>): seq<string> {
    match reply
    case Raised(_) => []
    case Got(texts) => KeptTexts(texts)
  }

  /** The keys of a product record, in insertion order: the optional fields that are
      present, then the two lists. */
  function ProductKeys(hasTitle: bool, hasPrice: bool, hasDescription: bool): seq<string> {
    (if hasTitle then ["title"] else []) + (if hasPrice then ["price"] else [])
    + (if hasDescription then ["description"] else []) + ["images", "reviews"]
  }

  /** The product record read from the page at `t`. `title`, `price` and `description` are
      present unless their element is missing; `images` and `reviews` are always present.
      The keys appear in that fixed order. */
  function ProductRecord(b: Page, t: Trace): (r: Record)
    ensures Keys(r) == ProductKeys(
      OptionalValue(b.queryFirst(t, Some(TitleSelector))).Some?,
      OptionalValue(b.queryFirst(t, Some(PriceSelector))).Some?,
      OptionalValue(b.queryFirst(t, Some(DescriptionSelector))).Some?)
    ensures forall i :: 0 <= i < |r| - 1 ==> Rank(r[i].0) < Rank(r[i + 1].0)
    ensures Get(r, "title") == OptionalValue(b.queryFirst(t, Some(TitleSelector)))
    ensures Get(r, "price") == OptionalValue(b.queryFirst(t, Some(PriceSelector)))
    ensures Get(r, "description") == OptionalValue(b.queryFirst(t, Some(DescriptionSelector)))
    ensures Get(r, "images") == Some(Strs(ImageSources(b.attributeAll(t, ImageSelector, "src"))))
    ensures Get(r, "reviews") == Some(Strs(ReviewTexts(b.queryAll(t, ReviewSelector))))
  {
    Assemble(
      OptionalValue(b.queryFirst(t, Some(TitleSelector))),
      OptionalValue(b.queryFirst(t, Some(PriceSelector))),
      OptionalValue(b.queryFirst(t, Some(DescriptionSelector))),
      ImageSources(b.attributeAll(t, ImageSelector, "src")),
      ReviewTexts(b.queryAll(t, ReviewSelector)))
  }

  /** The record built by the five assignments of the product strategy, in order. */
  function Assemble(title: Option<FieldValue>, price: Option<FieldValue>, description: Option<FieldValue>,
                    images: seq<string>, reviews: seq<string>): (r: Record)
    ensures Keys(r) == ProductKeys(title.Some?, price.Some?, description.Some?)
    ensures forall i :: 0 <= i < |r| - 1 ==> Rank(r[i].0) < Rank(r[i + 1].0)
    ensures Get(r, "title") == title && Get(r, "price") == price && Get(r, "description") == description
    ensures Get(r, "images") == Some(Strs(images)) && Get(r, "reviews") == Some(Strs(reviews))
  {
    var lists: Record := [("images", Strs(images)), ("reviews", Strs(reviews))];
    var r := Entry("title", title) + (Entry("price", price) + (Entry("description", description) + lists));
    assert Keys(lists) == ["images", "reviews"];
    assert Get(lists, "images") == Some(Strs(images));
    assert Get(lists, "reviews") == Some(Strs(reviews));
    AssembleGet(title, price, description, lists, "title");
    AssembleGet(title, price, description, lists, "price");
    AssembleGet(title, price, description, lists, "description");
    AssembleGet(title, price, description, lists, "images");
    AssembleGet(title, price, description, lists, "reviews");
    AssembleRanks(title, price, description, lists);
    AssembleKeys(title, price, description, lists);
    r
  }

  /** The keys of the assembled record come in increasing rank. */
  lemma AssembleRanks(title: Option<FieldValue>, price: Option<FieldValue>, description: Option<FieldValue>,
                      lists: Record)
    requires Keys(lists) == ["images", "reviews"]
    ensures var r := Entry("title", title) + (Entry("price", price) + (Entry("description", description) + lists));
      forall i :: 0 <= i < |r| - 1 ==> Rank(r[i].0) < Rank(r[i + 1].0)
  {
    var r := Entry("title", title) + (Entry("price", price) + (Entry("description", description) + lists));
    var ks := Keys(r);
    AssembleKeys(title, price, description, lists);
    RanksIncrease(ks, title.Some?, price.Some?, description.Some?);
    assert |ks| == |r|;
    forall i | 0 <= i < |r| - 1
      ensures Rank(r[i].0) < Rank(r[i + 1].0)
    {
      assert ks[i] == r[i].0 && ks[i + 1] == r[i + 1].0;
    }
  }

  lemma RanksIncrease(ks: seq<string>, t: bool, p: bool, d: bool)
    requires ks == ProductKeys(t, p, d)
    ensures forall i :: 0 <= i < |ks| - 1 ==> Rank(ks[i]) < Rank(ks[i + 1])
  {
  }

  /** The keys of the assembled record: the optional ones that are present, then the lists. */
  lemma AssembleKeys(title: Option<FieldValue>, price: Option<FieldValue>, description: Option<FieldValue>,
                     lists: Record)
    requires Keys(lists) == ["images", "reviews"]
    ensures Keys(Entry("title", title) + (Entry("price", price) + (Entry("description", description) + lists)))
      == ProductKeys(title.Some?, price.Some?, description.Some?)
  {
    var r3 := Entry("description", description) + lists;
    var r2 := Entry("price", price) + r3;
    var k3 := (if description.Some? then ["description"] else []) + ["images", "reviews"];
    var k2 := (if price.Some? then ["price"] else []) + k3;
    var k1 := (if title.Some? then ["title"] else []) + k2;
    EntryKeys("description", description, lists);
    EntryKeys("price", price, r3);
    EntryKeys("title", title, r2);
    assert k1 == ProductKeys(title.Some?, price.Some?, description.Some?);
  }

  /** Looking a key up in the assembled record. */
  lemma AssembleGet(title: Option<FieldValue>, price: Option<FieldValue>, description: Option<FieldValue>,
                    lists: Record, k: string)
    requires Keys(lists) == ["images", "reviews"]
    ensures Get(Entry("title", title) + (Entry("price", price) + (Entry("description", description) + lists)), k)
      == if k == "title" then title
         else if k == "price" then price
         else if k == "description" then description
         else Get(lists, k)
  {
    var r3 := Entry("description", description) + lists;
    var r2 := Entry("price", price) + r3;
    EntryKeys("description", description, lists);
    EntryKeys("price", price, r3);
    assert "price" !in Keys(r3);
    assert "title" !in Keys(r2);
    EntryGet("description", description, lists, k);
    EntryGet("price", price, r3, k);
    EntryGet("title", title, r2, k);
  }

  lemma EntryKeys(key: string, v: Option<FieldValue>, rest: Record)
    ensures Keys(Entry(key, v) + rest) == (if v.Some? then [key] else []) + Keys(rest)
  {
  }

  /** Looking a key up in a record that starts with an optional entry. */
  lemma EntryGet(key: string, v: Option<FieldValue>, rest: Record, k: string)
    requires key !in Keys(rest)
    ensures Get(Entry(key, v) + rest, k) == if k == key then v else Get(rest, k)
  {
    GetAppend(Entry(key, v), rest, k);
  }

  /** When the product extraction with a `url` succeeds: exactly when the goto and the
      2000 ms wait go through and the output format is json, csv or excel. A failing goto or
      wait ends the run with a driver error, and an unknown format raises once the page has
      settled. */
  lemma CustomEcommerceSucceeds(b: Page, t: Trace, c: Config)
    requires c.url.Some?
    ensures var settle := t + [Goto(c.url.value), Wait(ProductSettle)];
      CustomEcommerceExtract(b, t, c).result.Ok? <==>
        AllPassed(b, t, settle) && Lower(OutputFormat(c)) in {"json", "csv", "excel"}
    ensures var settle := t + [Goto(c.url.value), Wait(ProductSettle)];
      AllPassed(b, t, settle) && Lower(OutputFormat(c)) !in {"json", "csv", "excel"} ==>
        CustomEcommerceExtract(b, t, c).result == Err(UnsupportedFormat(OutputFormat(c)))
    ensures var settle := t + [Goto(c.url.value), Wait(ProductSettle)];
      !AllPassed(b, t, settle) ==>
        CustomEcommerceExtract(b, t, c).result.Err? && CustomEcommerceExtract(b, t, c).result.error.DriverError?
  {
    var actions := [Goto(c.url.value), Wait(ProductSettle)];
    if AllPassed(b, t, t + actions) {
      PerformSucceeds(b, t, actions);
    } else {
      PerformPassed(b, t, actions);
    }
  }

  /** `custom_ecommerce_extract`: go to the page, wait 2000 ms, then read the product record
      from the settled page; nothing else is issued. A missing `url` raises before anything
      is issued; a raising navigation or wait escapes; the record never raises, and the
      output format (default "json") is checked last. */
  function CustomEcommerceExtract(b: Page, t: Trace, c: Config): (r: Run<Output>)
    ensures c.url.None? ==> r == Run(Err(MissingKey("url")), t)
    ensures c.url.Some? ==>
      IsPrefix(t + [Goto(c.url.value)], r.trace) && IsPrefix(r.trace, t + [Goto(c.url.value), Wait(ProductSettle)])
    ensures c.url.Some? && r.result.Err? && !r.result.error.DriverError? ==>
      r.result.error == UnsupportedFormat(OutputFormat(c)) && r.trace == t + [Goto(c.url.value), Wait(ProductSettle)]
    ensures r.result.Ok? ==>
      && c.url.Some?
      && r.trace == t + [Goto(c.url.value), Wait(ProductSettle)]
      && (r.result.value.Raw? <==> Lower(OutputFormat(c)) == "json")
      && (r.result.value.Raw? ==> r.result.value.data.One?)
      && OutputRows(r.result.value) == [ProductRecord(b, r.trace)]
  {
    match c.url
    case None => Run(Err(MissingKey("url")), t)
    case Some(url) =>
      var nav := Perform(b, t, [Goto(url), Wait(ProductSettle)]);
      assert nav.trace[..|t| + 1] == t + [Goto(url)] by {
        assert nav.trace[..|t|] == t;
      }
      if nav.result.Err? then
        Run(Err(nav.result.error), nav.trace)
      else
        var out := FormatOutput(One(ProductRecord(b, nav.trace)), OutputFormat(c));
        assert out.Ok? ==> OutputRows(out.value) == [ProductRecord(b, nav.trace)];
        Run(out, nav.trace)
  }
}

=== FILE: fields.dfy ===
/** How the text of matched elements becomes the value of one field of a record. */
module Fields {
  import opened Wrappers
  import opened Text
  import opened Dicts
  import opened Driver

  /** A field of an extracted record: a single string, a list of strings, or Python's `None`
      (which only a custom strategy stores). */
  datatype FieldValue = Str(text: string) | Strs(texts: seq<string>) | Null

  /** One extracted record: field names in insertion order. */
  type Record = Dict<FieldValue>

  /** `value.strip() if value else ""`: a missing or empty text reads as "". */
  function TextOrEmpty(text: Option<string>): (s: string)
    ensures Stripped(s)
    ensures text.None? ==> s == ""
    ensures text.Some? ==> s == Strip(text.value)
  {
    if text.Some? && text.value != "" then Strip(text.value) else ""
  }

  /** The texts that are present and non-empty, in their original order, unstripped:
      what a loop `if value: values.append(value)` collects. */
  function Present(texts: Texts): (r: seq<string>)
    ensures |r| <= |texts|
    ensures forall k :: 0 <= k < |r| ==> r[k] != ""
  {
    if texts == [] then []
    else (if texts[0].Some? && texts[0].value != "" then [texts[0].value] else []) + Present(texts[1..])
  }

  /** Each text stripped, in order. */
  function StripAll(xs: seq<string>): (r: seq<string>)
    ensures |r| == |xs|
    ensures forall k :: 0 <= k < |r| ==> r[k] == Strip(xs[k])
  {
    if xs == [] then [] else [Strip(xs[0])] + StripAll(xs[1..])
  }

  /** `if value: values.append(value.strip())` over the matches: the stripped texts of the
      matches whose raw text is non-empty. A whitespace-only text is kept, as "". */
  function KeptTexts(texts: Texts): (r: seq<string>)
    ensures |r| == |Present(texts)| <= |texts|
    ensures forall k :: 0 <= k < |r| ==> r[k] == Strip(Present(texts)[k]) && Stripped(r[k])
  {
    StripAll(Present(texts))
  }

  /** First-page shaping of one field: exactly one match gives that match's stripped text
      (or "" when it has none); any other number of matches gives the list of kept texts,
      so no match gives []; a failed query gives "". The value is never `None`. */
  function ShapeFirst(reply: Reply<Texts>): (v: FieldValue)
    ensures !v.Null?
    ensures v.Str? <==> reply.Raised? || |reply.value| == 1
    ensures v.Str? ==> Stripped(v.text)
    ensures reply.Raised? ==> v == Str("")
    ensures reply.Got? && |reply.value| == 1 ==> v == Str(TextOrEmpty(reply.value[0]))
    ensures reply.Got? && |reply.value| != 1 ==> v == Strs(KeptTexts(reply.value))
  {
    match reply
    case Raised(_) => Str("")
    case Got(texts) =>
      if |texts| == 1 then Str(TextOrEmpty(texts[0])) else Strs(KeptTexts(texts))
  }

  /** Later-page shaping of one field: always a list, even for a single match; a failed
      query gives []. */
  function ShapeLater(reply: Reply<Texts>): (v: FieldValue)
    ensures v.Strs?
    ensures reply.Raised? ==> v.texts == []
    ensures reply.Got? ==> v.texts == KeptTexts(reply.value)
  {
    match reply
    case Raised(_) => Strs([])
    case Got(texts) => Strs(KeptTexts(texts))
  }

  /** The first-page field loop: one entry per selector, in selector order, each the
      first-page shape of that selector's query on the current page. A failing query
      only affects its own field. */
  function ExtractFields(b: Page, t: Trace, selectors: Dict<string>): (r: Record)
    ensures Keys(r) == Keys(selectors)
    ensures forall i :: 0 <= i < |r| ==> r[i].1 == ShapeFirst(b.queryAll(t, selectors[i].1))
  {
    MapValues(selectors, (sel: string) => ShapeFirst(b.queryAll(t, sel)))
  }

  /** The later-page field loop: the same keys, every value a list. */
  function ExtractPageData(b: Page, t: Trace, selectors: Dict<string>): (r: Record)
    ensures Keys(r) == Keys(selectors)
    ensures forall i :: 0 <= i < |r| ==> r[i].1 == ShapeLater(b.queryAll(t, selectors[i].1))
  {
    MapValues(selectors, (sel: string) => ShapeLater(b.queryAll(t, sel)))
  }

  /** The two shapings agree except on a failed query or a single match. */
  lemma ShapesAgreeBeyondOneMatch(reply: Reply<Texts>)
    ensures ShapeFirst(reply) != ShapeLater(reply) <==> reply.Raised? || |reply.value| == 1
  {
  }

  /** Collecting is order-preserving: the texts of two runs of matches, collected in turn,
      are the collected texts of both. */
  lemma {:induction false} PresentAppend(xs: Texts, ys: Texts)
    ensures Present(xs + ys) == Present(xs) + Present(ys)
    decreases |xs|
  {
    if xs == [] {
      assert xs + ys == ys;
    } else {
      assert (xs + ys)[0] == xs[0];
      assert (xs + ys)[1..] == xs[1..] + ys;
      PresentAppend(xs[1..], ys);
    }
  }

  /** Stripping each text of a concatenation strips each part. */
  lemma {:induction false} StripAllAppend(xs: seq<string>, ys: seq<string>)
    ensures StripAll(xs + ys) == StripAll(xs) + StripAll(ys)
    decreases |xs|
  {
    if xs == [] {
      assert xs + ys == ys;
    } else {
      assert (xs + ys)[0] == xs[0];
      assert (xs + ys)[1..] == xs[1..] + ys;
      StripAllAppend(xs[1..], ys);
    }
  }

  /** The kept texts follow DOM order: those of two runs of matches, kept in turn, are the
      kept texts of both. */
  lemma KeptTextsAppend(xs: Texts, ys: Texts)
    ensures KeptTexts(xs + ys) == KeptTexts(xs) + KeptTexts(ys)
  {
    PresentAppend(xs, ys);
    StripAllAppend(Present(xs), Present(ys));
  }

  /** A match whose text is non-empty but all whitespace is kept, and contributes "" at its
      place in the list. */
  lemma BlankKeptAsEmpty(xs: Texts, s: string, ys: Texts)
    requires s != "" && AllSpace(s)
    ensures KeptTexts(xs + [Some(s)] + ys) == KeptTexts(xs) + [""] + KeptTexts(ys)
  {
    var one: Texts := [Some(s)];
    KeptSingle(s);
    KeptTextsAppend(xs, one);
    KeptTextsAppend(xs + one, ys);
  }

  /** A match without text, or with the empty text, contributes nothing. */
  lemma NoTextDropped(xs: Texts, x: Option<string>, ys: Texts)
    requires x == None || x == Some("")
    ensures KeptTexts(xs + [x] + ys) == KeptTexts(xs) + KeptTexts(ys)
  {
    var one: Texts := [x];
    assert KeptTexts(one) == [] by {
      assert Present(one) == [];
    }
    KeptTextsAppend(xs, one);
    KeptTextsAppend(xs + one, ys);
    assert KeptTexts(xs) + [] == KeptTexts(xs);
  }

  lemma KeptSingle(s: string)
    requires s != "" && AllSpace(s)
    ensures KeptTexts([Some(s)]) == [""]
  {
    assert s == s + [] + [];
    StripUnique(s, [], []);
    var one: Texts := [Some(s)];
    assert Present(one) == [s];
  }

  /** A string is collected exactly when some match carries it as a non-empty text. */
  lemma {:induction false} PresentMembership(xs: Texts, s: string)
    ensures s in Present(xs) <==> exists i :: 0 <= i < |xs| && xs[i] == Some(s) && s != ""
    decreases |xs|
  {
    if xs != [] {
      PresentMembership(xs[1..], s);
      if s in Present(xs[1..]) {
        var i :| 0 <= i < |xs[1..]| && xs[1..][i] == Some(s) && s != "";
        assert xs[i + 1] == Some(s);
      }
      if exists i :: 0 <= i < |xs| && xs[i] == Some(s) && s != "" {
        var i :| 0 <= i < |xs| && xs[i] == Some(s) && s != "";
        if i > 0 {
          assert xs[1..][i - 1] == Some(s);
        }
      }
    }
  }

  /** When every match has a non-empty text, nothing is dropped and order is kept. */
  lemma {:induction false} PresentKeepsAll(xs: Texts)
    requires forall i :: 0 <= i < |xs| ==> xs[i].Some? && xs[i].value != ""
    ensures |Present(xs)| == |xs|
    ensures forall i :: 0 <= i < |xs| ==> Present(xs)[i] == xs[i].value
    decreases |xs|
  {
    if xs != [] {
      PresentKeepsAll(xs[1..]);
      assert forall i | 0 < i < |xs| :: Present(xs)[i] == Present(xs[1..])[i - 1];
    }
  }

  /** Three matches with texts " A ", " B ", "C" give the list ["A", "B", "C"]; here for
      any non-empty stripped A, B and C. */
  lemma ThreeQuotes(a: string, b: string, c: string)
    requires a != "" && b != "" && c != ""
    requires Stripped(a) && Stripped(b) && Stripped(c)
    ensures ShapeFirst(Got([Some(" " + a + " "), Some(" " + b + " "), Some(c)])) == Strs([a, b, c])
  {
    var pa, pb := " " + a + " ", " " + b + " ";
    var xs: Texts := [Some(pa), Some(pb), Some(c)];
    PresentKeepsAll(xs);
    var kept := Present(xs);
    assert kept == [pa, pb, c];
    StripPadded(a);
    StripPadded(b);
    StripPadded(c);
    StripAllThree(pa, pb, c, a, b, c);
  }

  lemma StripAllThree(x: string, y: string, z: string, x': string, y': string, z': string)
    requires Strip(x) == x' && Strip(y) == y' && Strip(z) == z'
    ensures StripAll([x, y, z]) == [x', y', z']
  {
    var r := StripAll([x, y, z]);
    assert r[0] == x' && r[1] == y' && r[2] == z';
  }
}

=== FILE: format.dfy ===
/** `_format_output`: the shape handed back to the caller for each output format. */
module Formatting {
  import opened Wrappers
  import opened Text
  import opened Fields

  /** What an extraction produces before formatting: one record, or a list of records. */
  datatype Data = One(record: Record) | Many(records: seq<Record>)

  /** A formatted result: the data unchanged (json), or a table given as its rows (csv and
      excel, whose data frame is built from a list of records). */
  datatype Output = Raw(data: Data) | Table(rows: seq<Record>)

  /** The rows a table is built from: the list itself, or a single record wrapped in a list. */
  function Rows(d: Data): (rows: seq<Record>)
    ensures d.One? ==> rows == [d.record]
    ensures d.Many? ==> rows == d.records
  {
    match d
    case One(r) => [r]
    case Many(rs) => rs
  }

  predicate EndsWith(s: string, suffix: string) {
    |suffix| <= |s| && s[|s| - |suffix|..] == suffix
  }

  /** Format `d` as `format`, compared case-insensitively: "json" passes the data through,
      "csv" and "excel" give its table of rows, and anything else fails with an error whose
      message names the requested format as given. */
  function FormatOutput(d: Data, format: string): (r: Result<Output>)
    ensures r.Ok? <==> Lower(format) in {"json", "csv", "excel"}
    ensures Lower(format) == "json" ==> r == Ok(Raw(d))
    ensures Lower(format) in {"csv", "excel"} ==> r == Ok(Table(Rows(d)))
    ensures r.Err? ==> r.error == UnsupportedFormat(format) && EndsWith(Message(r.error), format)
  {
    var f := Lower(format);
    if f == "json" then Ok(Raw(d))
    else if f == "csv" then Ok(Table(Rows(d)))
    else if f == "excel" then Ok(Table(Rows(d)))
    else Err(UnsupportedFormat(format))
  }

  /** Only the lower-cased format matters, apart from the wording of the error. */
  lemma FormatIgnoresCase(d: Data, f: string, g: string)
    requires Lower(f) == Lower(g)
    ensures FormatOutput(d, f).Ok? <==> FormatOutput(d, g).Ok?
    ensures FormatOutput(d, f).Ok? ==> FormatOutput(d, f) == FormatOutput(d, g)
  {
  }

  /** Any spelling of "json" hands back the very data it was given, so the caller gets the
      extracted records back unchanged. */
  lemma JsonRoundTrip(d: Data, f: string)
    requires Lower(f) == "json"
    ensures FormatOutput(d, f).Ok? && FormatOutput(d, f).value.Raw?
    ensures FormatOutput(d, f).value.data == d
  {
  }

  /** "JSON", "Csv" and "EXCEL" are accepted; "bogus" is refused with an error naming it. */
  lemma FormatExamples(d: Data)
    ensures FormatOutput(d, "JSON") == Ok(Raw(d))
    ensures FormatOutput(d, "Csv") == Ok(Table(Rows(d)))
    ensures FormatOutput(d, "EXCEL") == Ok(Table(Rows(d)))
    ensures FormatOutput(d, "bogus") == Err(UnsupportedFormat("bogus"))
    ensures Message(FormatOutput(d, "bogus").error) == "Unsupported output format: bogus"
  {
    assert Lower("JSON") == "json";
    assert Lower("Csv") == "csv";
    assert Lower("EXCEL") == "excel";
    assert Lower("bogus") == "bogus";
  }
}

=== FILE: pagination.dfy ===
/** `_handle_multi_page`: follow the "next" button from page 2 up to `max_pages`. */
module Pagination {
  import opened Wrappers
  import opened Dicts
  import opened Driver
  import opened Configuration
  import opened Fields
  import opened Scrolling

  /** The fixed wait after clicking the next-page button. */
  const NextPageSettle := 2000

  /** The records of the visited pages and the trace at the end of the loop. */
  datatype Paged = Paged(pages: seq<Record>, trace: Trace)

  /** The actions of `k` successful turns: click the button, then wait. */
  function Visits(sel: Option<string>, k: nat): Trace {
    Pairs(Click(sel), Wait(NextPageSettle), k)
  }

  /** One turn of the loop goes through from the page at `t`: the button is found, and
      neither the click nor the wait after it raises. */
  predicate Advances(b: Page, t: Trace, sel: Option<string>) {
    && b.queryFirst(t, sel).Got?
    && b.queryFirst(t, sel).value.Some?
    && b.perform(t, Click(sel)).Got?
    && b.perform(t + [Click(sel)], Wait(NextPageSettle)).Got?
  }

  /** Pages `pageNum` to `maxPages`: at most one per remaining page number, each after one
      more click-and-wait turn, and at most one turn beyond the collected pages is begun.
      No error escapes. Which pages are read and where the loop stops are stated by
      `LaterPagesRead` and `LaterPagesStop`. */
  function LaterPages(b: Page, t: Trace, sel: Option<string>, selectors: Dict<string>,
                      pageNum: int, maxPages: int): (p: Paged)
    ensures |p.pages| <= Max0(maxPages - pageNum + 1)
    ensures IsPrefix(t + Visits(sel, |p.pages|), p.trace)
    ensures |p.trace| <= |t| + 2 * |p.pages| + 2
    decreases maxPages - pageNum + 1
  {
    assert t + Visits(sel, 0) == t by { PairsShape(Click(sel), Wait(NextPageSettle), 0); }
    if pageNum > maxPages then
      Paged([], t)
    else
      match b.queryFirst(t, sel)
      case Raised(_) => Paged([], t)
      case Got(None) => Paged([], t)
      case Got(Some(_)) =>
        var t1 := t + [Click(sel)];
        match b.perform(t, Click(sel))
        case Raised(_) => Paged([], t1)
        case Got(_) =>
          var t2 := t1 + [Wait(NextPageSettle)];
          match b.perform(t1, Wait(NextPageSettle))
          case Raised(_) => Paged([], t2)
          case Got(_) =>
            var rest := LaterPages(b, t2, sel, selectors, pageNum + 1, maxPages);
            var p := Paged([ExtractPageData(b, t2, selectors)] + rest.pages, rest.trace);
            assert t2 == t + [Click(sel), Wait(NextPageSettle)];
            VisitsShift(t, sel, |rest.pages|);
            p
  }

  /** When the turn from `t` goes through and page numbers remain, the loop reads the page it
      reaches and goes on from there; otherwise it collects nothing. */
  lemma LaterPagesUnfold(b: Page, t: Trace, sel: Option<string>, selectors: Dict<string>,
                         pageNum: int, maxPages: int)
    ensures var p := LaterPages(b, t, sel, selectors, pageNum, maxPages);
      var t2 := t + [Click(sel), Wait(NextPageSettle)];
      if pageNum <= maxPages && Advances(b, t, sel) then
        p.pages == [ExtractPageData(b, t2, selectors)]
          + LaterPages(b, t2, sel, selectors, pageNum + 1, maxPages).pages
      else p.pages == []
  {
    assert t + [Click(sel)] + [Wait(NextPageSettle)] == t + [Click(sel), Wait(NextPageSettle)];
  }

  /** The k-th collected page is read after k+1 turns, and every turn up to it went through. */
  lemma {:induction false} LaterPagesRead(b: Page, t: Trace, sel: Option<string>, selectors: Dict<string>,
                                          pageNum: int, maxPages: int, k: nat)
    requires k < |LaterPages(b, t, sel, selectors, pageNum, maxPages).pages|
    ensures Advances(b, t + Visits(sel, k), sel)
    ensures LaterPages(b, t, sel, selectors, pageNum, maxPages).pages[k]
      == ExtractPageData(b, t + Visits(sel, k + 1), selectors)
    decreases k
  {
    var t2 := t + [Click(sel), Wait(NextPageSettle)];
    var rest := LaterPages(b, t2, sel, selectors, pageNum + 1, maxPages);
    LaterPagesUnfold(b, t, sel, selectors, pageNum, maxPages);
    assert pageNum <= maxPages && Advances(b, t, sel);
    VisitsShift(t, sel, k);
    if k == 0 {
      assert t + Visits(sel, 0) == t by { PairsShape(Click(sel), Wait(NextPageSettle), 0); }
      assert t2 + Visits(sel, 0) == t2 by { PairsShape(Click(sel), Wait(NextPageSettle), 0); }
    } else {
      LaterPagesRead(b, t2, sel, selectors, pageNum + 1, maxPages, k - 1);
      VisitsShift(t, sel, k - 1);
    }
  }

  /** The loop ends early exactly at the first turn that does not go through: the button is
      missing, or the query, the click or the wait raises. */
  lemma {:induction false} LaterPagesStop(b: Page, t: Trace, sel: Option<string>, selectors: Dict<string>,
                                          pageNum: int, maxPages: int)
    ensures var p := LaterPages(b, t, sel, selectors, pageNum, maxPages);
      |p.pages| < Max0(maxPages - pageNum + 1) ==> !Advances(b, t + Visits(sel, |p.pages|), sel)
    decreases maxPages - pageNum + 1
  {
    LaterPagesUnfold(b, t, sel, selectors, pageNum, maxPages);
    var p := LaterPages(b, t, sel, selectors, pageNum, maxPages);
    if pageNum <= maxPages && Advances(b, t, sel) {
      var t2 := t + [Click(sel), Wait(NextPageSettle)];
      var rest := LaterPages(b, t2, sel, selectors, pageNum + 1, maxPages);
      LaterPagesStop(b, t2, sel, selectors, pageNum + 1, maxPages);
      VisitsShift(t, sel, |rest.pages|);
      assert Max0(maxPages - pageNum + 1) == Max0(maxPages - (pageNum + 1) + 1) + 1;
    } else {
      assert t + Visits(sel, 0) == t by { PairsShape(Click(sel), Wait(NextPageSettle), 0); }
    }
  }

  /** One more turn in front: the trace after the first turn, followed by k more turns. */
  lemma VisitsShift(t: Trace, sel: Option<string>, k: nat)
    ensures t + [Click(sel), Wait(NextPageSettle)] + Visits(sel, k) == t + Visits(sel, k + 1)
  {
  }

  /** The loop of `_handle_multi_page`: the first-page record comes first when it is
      non-empty, and at most `max_pages` records come back in all (one when `max_pages` is
      below 1 and the first page is kept). An absent pagination selector is handed to the
      page as it is, and what the page finds for it decides whether the loop goes on
      (`NoButtonKeepsSeed`). Which later pages follow is stated by `MultiPageRead`. */
  function HandleMultiPage(b: Page, t: Trace, c: Config, seed: Record): (p: Paged)
    ensures |p.pages| <= if MaxPages(c) >= 1 then MaxPages(c) else 1
    ensures seed != [] ==> |p.pages| >= 1 && p.pages[0] == seed
    ensures IsPrefix(t, p.trace)
  {
    var later := LaterPages(b, t, c.paginationSelector, c.selectors, 2, MaxPages(c));
    var visited := t + Visits(c.paginationSelector, |later.pages|);
    assert visited[..|t|] == t;
    PrefixTrans(t, visited, later.trace);
    Paged((if seed != [] then [seed] else []) + later.pages, later.trace)
  }

  /** An empty first-page record is dropped; every record after the kept first one is a
      later page, in visit order: the j-th of them is read after j+1 turns. */
  lemma MultiPageRead(b: Page, t: Trace, c: Config, seed: Record, k: nat)
    requires (if seed != [] then 1 else 0) <= k < |HandleMultiPage(b, t, c, seed).pages|
    ensures var skip := if seed != [] then 1 else 0;
      HandleMultiPage(b, t, c, seed).pages[k]
        == ExtractPageData(b, t + Visits(c.paginationSelector, k - skip + 1), c.selectors)
  {
    var later := LaterPages(b, t, c.paginationSelector, c.selectors, 2, MaxPages(c));
    var skip := if seed != [] then 1 else 0;
    var head: seq<Record> := if seed != [] then [seed] else [];
    var pages := HandleMultiPage(b, t, c, seed).pages;
    assert pages == head + later.pages;
    assert |head| == skip;
    var j: nat := k - skip;
    var page := ExtractPageData(b, t + Visits(c.paginationSelector, j + 1), c.selectors);
    assert later.pages[j] == page by {
      LaterPagesRead(b, t, c.paginationSelector, c.selectors, 2, MaxPages(c), j);
    }
    assert pages[k] == page;
  }

  /** Every collected record has the keys of `selectors`, given that the first-page record
      has them. */
  lemma MultiPageKeys(b: Page, t: Trace, c: Config, seed: Record)
    requires Keys(seed) == Keys(c.selectors)
    ensures var p := HandleMultiPage(b, t, c, seed);
      forall k :: 0 <= k < |p.pages| ==> Keys(p.pages[k]) == Keys(c.selectors)
  {
    var p := HandleMultiPage(b, t, c, seed);
    forall k | 0 <= k < |p.pages|
      ensures Keys(p.pages[k]) == Keys(c.selectors)
    {
      if k >= (if seed != [] then 1 else 0) {
        MultiPageRead(b, t, c, seed, k);
      }
    }
  }

  /** When the page finds no next button at the start, or the query for it raises, only
      the kept first-page record comes back and nothing is issued. This holds for an absent
      pagination selector too, whenever the page answers it that way. */
  lemma NoButtonKeepsSeed(b: Page, t: Trace, c: Config, seed: Record)
    requires b.queryFirst(t, c.paginationSelector).Raised? || b.queryFirst(t, c.paginationSelector) == Got(None)
    ensures HandleMultiPage(b, t, c, seed).pages == if seed != [] then [seed] else []
    ensures HandleMultiPage(b, t, c, seed).trace == t
  {
    var later := LaterPages(b, t, c.paginationSelector, c.selectors, 2, MaxPages(c));
    assert later == Paged([], t);
    assert (if seed != [] then [seed] else []) + later.pages == if seed != [] then [seed] else [];
  }

  /** The handler stops paginating only when page numbers run out, or at the first turn that
      does not go through: the next button is missing, or its query, the click or the wait
      raises. The pages collected so far come back. */
  lemma MultiPageStop(b: Page, t: Trace, c: Config, seed: Record)
    ensures var p := HandleMultiPage(b, t, c, seed);
      var skip := if seed != [] then 1 else 0;
      && |p.pages| >= skip
      && (|p.pages| - skip < Max0(MaxPages(c) - 1) ==>
            !Advances(b, t + Visits(c.paginationSelector, |p.pages| - skip), c.paginationSelector))
  {
    LaterPagesStop(b, t, c.paginationSelector, c.selectors, 2, MaxPages(c));
  }

  /** With `max_pages` 3 and a next button that is there once and then missing, the result
      holds exactly the first page and the second. */
  lemma StopsWhenButtonMissing(b: Page, t: Trace, c: Config, seed: Record)
    requires MaxPages(c) == 3 && seed != []
    requires Advances(b, t, c.paginationSelector)
    requires b.queryFirst(t + Visits(c.paginationSelector, 1), c.paginationSelector) == Got(None)
    ensures HandleMultiPage(b, t, c, seed).pages
      == [seed, ExtractPageData(b, t + Visits(c.paginationSelector, 1), c.selectors)]
  {
    var sel := c.paginationSelector;
    var t2 := t + [Click(sel), Wait(NextPageSettle)];
    VisitsShift(t, sel, 0);
    assert t2 == t + Visits(sel, 1) by { PairsShape(Click(sel), Wait(NextPageSettle), 0); }
    LaterPagesUnfold(b, t, sel, c.selectors, 2, 3);
    LaterPagesUnfold(b, t2, sel, c.selectors, 3, 3);
    assert |LaterPages(b, t2, sel, c.selectors, 3, 3).pages| == 0;
    assert |LaterPages(b, t, sel, c.selectors, 2, 3).pages| == 1;
    MultiPageRead(b, t, c, seed, 1);
  }
}

=== FILE: scraper.dfy ===
/** `WebScraper.extract` and `_standard_extract`: navigation, optional scrolling, the field
    loop, optional pagination, then formatting. */
module Scraper {
  import opened Wrappers
  import opened Text
  import opened Dicts
  import opened Driver
  import opened Configuration
  import opened Fields
  import opened Formatting
  import opened Scrolling
  import opened Pagination

  /** Everything the standard path issues before its first query: go to the page, wait
      `wait_time`, then (with `infinite_scroll`) the scroll-then-wait turns. */
  function Settle(c: Config, url: string): Trace {
    [Goto(url), Wait(WaitTime(c))] + (if c.infiniteScroll then ScrollSteps(MaxScrolls(c), ScrollDelay(c)) else [])
  }

  /** The records a formatted output carries, whichever shape it has. */
  function OutputRows(o: Output): seq<Record> {
    match o
    case Raw(d) => Rows(d)
    case Table(rows) => rows
  }

  /** The navigation part of `_standard_extract`: go to `url`, wait `wait_time`, then scroll
      when `infinite_scroll` is set. The first action that raises ends it with a driver
      error; otherwise the whole settle sequence is issued. */
  function Navigate(b: Page, t: Trace, c: Config, url: string): (r: Run<()>)
    ensures IsPrefix(t + [Goto(url)], r.trace) && IsPrefix(r.trace, t + Settle(c, url))
    ensures r.result.Ok? ==> r.trace == t + Settle(c, url)
    ensures r.result.Err? ==> r.result.error.DriverError?
  {
    var nav := Perform(b, t, [Goto(url), Wait(WaitTime(c))]);
    var r := if nav.result.Err? || !c.infiniteScroll then nav
             else ScrollLoop(b, nav.trace, MaxScrolls(c), ScrollDelay(c));
    NavigateIsPerform(b, t, c, url);
    PerformFirst(b, t, Settle(c, url));
    r
  }

  /** Navigation is the straight run of the settle sequence. */
  lemma NavigateIsPerform(b: Page, t: Trace, c: Config, url: string)
    ensures var nav := Perform(b, t, [Goto(url), Wait(WaitTime(c))]);
      Perform(b, t, Settle(c, url))
      == if nav.result.Err? || !c.infiniteScroll then nav
         else ScrollLoop(b, nav.trace, MaxScrolls(c), ScrollDelay(c))
  {
    var head := [Goto(url), Wait(WaitTime(c))];
    if c.infiniteScroll {
      PerformAppend(b, t, head, ScrollSteps(MaxScrolls(c), ScrollDelay(c)));
    } else {
      assert Settle(c, url) == head;
    }
  }

  /** What the standard path collects once the page has settled at `s`, before formatting. */
  datatype Collected = Collected(data: Data, trace: Trace)

  /** The field loop on the settled page, then pagination when `multi_page` is set. Nothing
      here raises. Every record has exactly the keys of `selectors`. Without `multi_page`
      the single record is read at `s` and nothing else is issued; with it, at most
      `max_pages` records come back (one when `max_pages` is below 1), the first-page record
      first when `selectors` is non-empty. */
  function Collect(b: Page, s: Trace, c: Config): (r: Collected)
    ensures IsPrefix(s, r.trace)
    ensures r.data.Many? <==> c.multiPage
    ensures forall k :: 0 <= k < |Rows(r.data)| ==> Keys(Rows(r.data)[k]) == Keys(c.selectors)
    ensures !c.multiPage ==> r.trace == s && r.data == One(ExtractFields(b, s, c.selectors))
    ensures c.multiPage ==>
      var p := HandleMultiPage(b, s, c, ExtractFields(b, s, c.selectors));
      r.data == Many(p.pages) && r.trace == p.trace
    ensures c.multiPage ==>
      && |Rows(r.data)| <= (if MaxPages(c) >= 1 then MaxPages(c) else 1)
      && (c.selectors != [] ==> |Rows(r.data)| >= 1 && Rows(r.data)[0] == ExtractFields(b, s, c.selectors))
  {
    var record := ExtractFields(b, s, c.selectors);
    if c.multiPage then
      var paged := HandleMultiPage(b, s, c, record);
      MultiPageKeys(b, s, c, record);
      assert c.selectors != [] ==> record != [] by {
        assert |Keys(record)| == |Keys(c.selectors)|;
      }
      Collected(Many(paged.pages), paged.trace)
    else
      Collected(One(record), s)
  }

  /** `_standard_extract`. A missing `url` raises before anything is issued. Only the
      navigation, the first wait and the scrolling can raise a driver error, which escapes;
      field queries and pagination never raise, and the output format is checked last.
      Every record is read after the whole settle sequence and has exactly the keys of
      `selectors`; without `multi_page` the one record is read right after settling. */
  function StandardExtract(b: Page, t: Trace, c: Config): (r: Run<Output>)
    ensures c.url.None? ==> r == Run(Err(MissingKey("url")), t)
    ensures c.url.Some? ==> IsPrefix(t + [Goto(c.url.value)], r.trace)
    ensures r.result.Ok? ==> (r.result.value.Raw? <==> Lower(OutputFormat(c)) == "json")
    ensures r.result.Ok? && r.result.value.Raw? ==> (r.result.value.data.Many? <==> c.multiPage)
    ensures r.result.Ok? && !c.multiPage ==>
      var settled := t + Settle(c, c.url.value);
      r.trace == settled && OutputRows(r.result.value) == [ExtractFields(b, settled, c.selectors)]
  {
    match c.url
    case None => Run(Err(MissingKey("url")), t)
    case Some(url) =>
      var nav := Navigate(b, t, c, url);
      if nav.result.Err? then
        Run(Err(nav.result.error), nav.trace)
      else
        var collected := Collect(b, nav.trace, c);
        var out := FormatOutput(collected.data, OutputFormat(c));
        PrefixTrans(t + [Goto(url)], nav.trace, collected.trace);
        assert out.Ok? ==> OutputRows(out.value) == Rows(collected.data);
        Run(out, collected.trace)
  }

  /** Where a standard extraction can fail: a driver error comes only from the settle
      sequence (navigation, first wait, scrolling), before any field is read; any other
      error with a `url` is the unsupported output format, raised after settling; a success
      has issued the whole settle sequence. */
  lemma StandardExtractErrors(b: Page, t: Trace, c: Config)
    ensures var r := StandardExtract(b, t, c);
      r.result.Err? && r.result.error.DriverError? ==>
        c.url.Some? && IsPrefix(r.trace, t + Settle(c, c.url.value))
    ensures var r := StandardExtract(b, t, c);
      r.result.Err? && !r.result.error.DriverError? && c.url.Some? ==>
        r.result.error == UnsupportedFormat(OutputFormat(c)) && IsPrefix(t + Settle(c, c.url.value), r.trace)
    ensures var r := StandardExtract(b, t, c);
      r.result.Ok? ==> c.url.Some? && IsPrefix(t + Settle(c, c.url.value), r.trace)
  {
    if c.url.Some? {
      var url := c.url.value;
      var nav := Navigate(b, t, c, url);
      if nav.result.Ok? {
        var collected := Collect(b, nav.trace, c);
        assert IsPrefix(t + Settle(c, url), collected.trace);
      }
    }
  }

  /** When a standard extraction with a `url` succeeds: exactly when every action of the
      settle sequence goes through and the output format is json, csv or excel. A failing
      settle action always ends the run with a driver error; once settling went through,
      the only possible error is the unsupported format, since no field query raises. */
  lemma StandardExtractSucceeds(b: Page, t: Trace, c: Config)
    requires c.url.Some?
    ensures var r := StandardExtract(b, t, c);
      r.result.Ok? <==> AllPassed(b, t, t + Settle(c, c.url.value)) && Lower(OutputFormat(c)) in {"json", "csv", "excel"}
    ensures var r := StandardExtract(b, t, c);
      !AllPassed(b, t, t + Settle(c, c.url.value)) ==> r.result.Err? && r.result.error.DriverError?
    ensures var r := StandardExtract(b, t, c);
      AllPassed(b, t, t + Settle(c, c.url.value)) && r.result.Err? ==> r.result.error == UnsupportedFormat(OutputFormat(c))
  {
    var url := c.url.value;
    var settle := Settle(c, url);
    NavigateIsPerform(b, t, c, url);
    var nav := Navigate(b, t, c, url);
    assert nav == Perform(b, t, settle);
    if AllPassed(b, t, t + settle) {
      PerformSucceeds(b, t, settle);
      assert nav.result.Ok?;
    } else {
      PerformPassed(b, t, settle);
      assert nav.result.Err?;
    }
  }

  /** The records of a successful standard extraction: every one has exactly the keys of
      `selectors`; with `multi_page` there are at most `max_pages` of them (one when
      `max_pages` is below 1), the first-page record first when `selectors` is non-empty. */
  lemma StandardExtractRecords(b: Page, t: Trace, c: Config)
    ensures var r := StandardExtract(b, t, c);
      r.result.Ok? ==> forall k :: 0 <= k < |OutputRows(r.result.value)| ==>
        Keys(OutputRows(r.result.value)[k]) == Keys(c.selectors)
    ensures var r := StandardExtract(b, t, c);
      r.result.Ok? && c.multiPage ==>
        var rows := OutputRows(r.result.value);
        && |rows| <= (if MaxPages(c) >= 1 then MaxPages(c) else 1)
        && (c.selectors != [] ==>
              |rows| >= 1 && rows[0] == ExtractFields(b, t + Settle(c, c.url.value), c.selectors))
  {
    var r := StandardExtract(b, t, c);
    if r.result.Ok? {
      var url := c.url.value;
      var nav := Navigate(b, t, c, url);
      var collected := Collect(b, nav.trace, c);
      assert OutputRows(r.result.value) == Rows(collected.data);
    }
  }

  /** With `multi_page`, the rows of a successful standard extraction are exactly the pages
      the pagination handler collects from the settled page, seeded with its record. */
  lemma StandardExtractPaginates(b: Page, t: Trace, c: Config)
    requires c.url.Some? && c.multiPage
    ensures var r := StandardExtract(b, t, c);
      var settled := t + Settle(c, c.url.value);
      r.result.Ok? ==>
        && OutputRows(r.result.value) == HandleMultiPage(b, settled, c, ExtractFields(b, settled, c.selectors)).pages
        && r.trace == HandleMultiPage(b, settled, c, ExtractFields(b, settled, c.selectors)).trace
  {
    var r := StandardExtract(b, t, c);
    if r.result.Ok? {
      var nav := Navigate(b, t, c, c.url.value);
      var collected := Collect(b, nav.trace, c);
      assert OutputRows(r.result.value) == Rows(collected.data);
    }
  }

  /** A custom extraction function: it receives the scraper's page and the configuration. */
  type Strategy = (Page, Trace, Config) -> Run<Output>

  /** `WebScraper.extract`: with a `custom_function` the result, and any error it raises, is
      exactly that function's, and the standard path is not taken; otherwise the standard
      path runs. Errors are re-raised unchanged. */
  function Extract(b: Page, t: Trace, c: Config, custom: Option<Strategy>): (r: Run<Output>)
    ensures custom.Some? ==> r == custom.value(b, t, c)
    ensures custom.None? ==> r == StandardExtract(b, t, c)
  {
    match custom
    case Some(f) => f(b, t, c)
    case None => StandardExtract(b, t, c)
  }
}

=== FILE: scroll.dfy ===
/** `_handle_infinite_scroll`: a fixed number of scroll-then-wait turns. */
module Scrolling {
  import opened Wrappers
  import opened Driver

  function Max0(n: int): nat {
    if n < 0 then 0 else n
  }

  /** The actions of `n` turns: scroll to the bottom, then wait `delay` ms; none for n <= 0. */
  function ScrollSteps(n: int, delay: int): Trace {
    Pairs(ScrollToBottom, Wait(delay), Max0(n))
  }

  /** `for i in range(n)`: scroll, then wait, `n` times. Nothing on the page is read and
      there is no `try`, so the loop is the straight run of its `2n` actions, stopping only
      when one of them raises (the error propagates). */
  function ScrollLoop(b: Page, t: Trace, n: int, delay: int): (r: Run<()>)
    ensures IsPrefix(t, r.trace) && IsPrefix(r.trace, t + ScrollSteps(n, delay))
    ensures r.result.Ok? ==> r.trace == t + ScrollSteps(n, delay)
    ensures r.result.Ok? ==> Count(r.trace[|t|..], ScrollToBottom) == Max0(n)
    ensures r.result.Err? ==> r.result.error.DriverError?
  {
    var r := Perform(b, t, ScrollSteps(n, delay));
    CountPairs(ScrollToBottom, Wait(delay), Max0(n));
    assert r.result.Ok? ==> r.trace[|t|..] == ScrollSteps(n, delay);
    r
  }

  /** If no scroll or wait raises, all `n` turns happen. */
  lemma ScrollLoopCompletes(b: Page, t: Trace, n: int, delay: int)
    requires AllPassed(b, t, t + ScrollSteps(n, delay))
    ensures ScrollLoop(b, t, n, delay) == Run(Ok(()), t + ScrollSteps(n, delay))
  {
    PerformSucceeds(b, t, ScrollSteps(n, delay));
  }

  /** What the page shows has no influence on the loop: two pages that accept and refuse
      the same actions scroll identically. */
  lemma ScrollIgnoresContent(b1: Page, b2: Page, t: Trace, n: int, delay: int)
    requires b1.perform == b2.perform
    ensures ScrollLoop(b1, t, n, delay) == ScrollLoop(b2, t, n, delay)
  {
    PerformIgnoresContent(b1, b2, t, ScrollSteps(n, delay));
  }
}

=== FILE: strategies.dfy ===
/** The custom extraction functions shipped with the scraper: `infinite_scroll_extract` and
    `login_extract`. Each fits `Scraper.Strategy`. */
module Strategies {
  import opened Wrappers
  import opened Text
  import opened Dicts
  import opened Driver
  import opened Configuration
  import opened Fields
  import opened Formatting
  import opened Scrolling
  import opened Scraper

  /** One item field: the first scoped match's stripped text; "" when there is no such
      element, when its text is missing or empty, or when the query raised. */
  function ScopedText(reply: Reply<Option<Option<string>>>): (s: string)
    ensures Stripped(s)
    ensures reply.Raised? || reply == Got(None) ==> s == ""
    ensures reply.Got? && reply.value.Some? ==> s == TextOrEmpty(reply.value.value)
  {
    match reply
    case Raised(_) => ""
    case Got(None) => ""
    case Got(Some(text)) => TextOrEmpty(text)
  }

  /** The record of the `i`-th item root: one entry per item selector, in order. */
  function ItemRecord(b: Page, t: Trace, root: string, i: nat, fields: Dict<string>): (r: Record)
    ensures Keys(r) == Keys(fields)
    ensures forall j :: 0 <= j < |r| ==> r[j].1 == Str(ScopedText(b.queryInItem(t, root, i, fields[j].1)))
  {
    MapValues(fields, (sel: string) => Str(ScopedText(b.queryInItem(t, root, i, sel))))
  }

  /** `infinite_scroll_extract`: go to the page (no settle wait), scroll `max_scrolls` turns,
      then build one record per item root, in DOM order. Navigation, scrolling and the
      item-root query may raise, and the error escapes; a failing field query only empties
      that field. The result is formatted as a list of records. */
  function InfiniteScrollExtract(b: Page, t: Trace, c: Config): (r: Run<Output>)
    ensures c.url.None? ==> r == Run(Err(MissingKey("url")), t)
    ensures c.url.Some? ==> IsPrefix(t + [Goto(c.url.value)], r.trace)
    ensures c.url.Some? && r.result.Err? && r.result.error.DriverError? ==>
      IsPrefix(r.trace, t + [Goto(c.url.value)] + ScrollSteps(MaxScrolls(c), ScrollDelay(c)))
    ensures c.url.Some? && r.result.Err? && !r.result.error.DriverError? ==>
      r.result.error == UnsupportedFormat(OutputFormat(c))
    ensures r.result.Ok? ==>
      && c.url.Some?
      && r.trace == t + [Goto(c.url.value)] + ScrollSteps(MaxScrolls(c), ScrollDelay(c))
      && (r.result.value.Raw? <==> Lower(OutputFormat(c)) == "json")
      && (r.result.value.Raw? ==> r.result.value.data.Many?)
      && b.itemCount(r.trace, ItemSelector(c)).Got?
      && |OutputRows(r.result.value)| == b.itemCount(r.trace, ItemSelector(c)).value
    ensures r.result.Ok? ==> forall i :: 0 <= i < |OutputRows(r.result.value)| ==>
      OutputRows(r.result.value)[i] == ItemRecord(b, r.trace, ItemSelector(c), i, c.itemSelectors)
  {
    match c.url
    case None => Run(Err(MissingKey("url")), t)
    case Some(url) =>
      var nav := Perform(b, t, [Goto(url)]);
      if nav.result.Err? then
        assert nav.trace == t + [Goto(url)];
        Run(Err(nav.result.error), nav.trace)
      else
        var scrolled := ScrollLoop(b, nav.trace, MaxScrolls(c), ScrollDelay(c));
        var s := scrolled.trace;
        assert s[..|t| + 1] == t + [Goto(url)] by {
          assert s[..|nav.trace|] == nav.trace;
        }
        if scrolled.result.Err? then
          Run(Err(scrolled.result.error), s)
        else
          var root := ItemSelector(c);
          match b.itemCount(s, root)
          case Raised(m) => Run(Err(DriverError(m)), s)
          case Got(n) =>
            var items := seq(n, i requires 0 <= i < n => ItemRecord(b, s, root, i, c.itemSelectors));
            var out := FormatOutput(Many(items), OutputFormat(c));
            assert out.Ok? ==> OutputRows(out.value) == items;
            Run(out, s)
  }

  /** When an item-list extraction with a `url` succeeds: exactly when goto and every scroll
      action go through, the item-root query answers, and the output format is json, csv or
      excel. A failing goto or scroll action ends the run with a driver error; a failing
      field query never fails the run. */
  lemma InfiniteScrollSucceeds(b: Page, t: Trace, c: Config)
    requires c.url.Some?
    ensures var steps := [Goto(c.url.value)] + ScrollSteps(MaxScrolls(c), ScrollDelay(c));
      InfiniteScrollExtract(b, t, c).result.Ok? <==>
        && AllPassed(b, t, t + steps)
        && b.itemCount(t + steps, ItemSelector(c)).Got?
        && Lower(OutputFormat(c)) in {"json", "csv", "excel"}
    ensures var steps := [Goto(c.url.value)] + ScrollSteps(MaxScrolls(c), ScrollDelay(c));
      !AllPassed(b, t, t + steps) ==>
        InfiniteScrollExtract(b, t, c).result.Err? && InfiniteScrollExtract(b, t, c).result.error.DriverError?
  {
    var url := c.url.value;
    var scroll := ScrollSteps(MaxScrolls(c), ScrollDelay(c));
    var steps := [Goto(url)] + scroll;
    var nav := Perform(b, t, [Goto(url)]);
    PerformAppend(b, t, [Goto(url)], scroll);
    if AllPassed(b, t, t + steps) {
      PerformSucceeds(b, t, steps);
      assert nav.result.Ok?;
      assert nav.trace == t + [Goto(url)];
      assert t + [Goto(url)] + scroll == t + steps;
    } else {
      PerformPassed(b, t, steps);
    }
  }

  /** The wait after submitting the login form. */
  const LoginSettle := 3000

  /** A configuration value Python treats as true: present and non-empty. */
  predicate Truthy(s: Option<string>) {
    s.Some? && s.value != ""
  }

  /** The login actions: fill the user name, fill the password, click submit, wait. They are
      issued only for a non-empty `login` entry with a truthy user name and password; the
      selectors are passed as found, even when missing. */
  function LoginSteps(login: Option<Login>): (steps: Trace)
    ensures steps != [] <==> login.Some? && Truthy(login.value.username) && Truthy(login.value.password)
  {
    match login
    case Some(l) =>
      if Truthy(l.username) && Truthy(l.password) then
        [ Fill(l.usernameSelector, l.username.value),
          Fill(l.passwordSelector, l.password.value),
          Click(l.submitSelector),
          Wait(LoginSettle) ]
      else []
    case None => []
  }

  /** `login_extract`: go to the page, log in when credentials are given, then run the
      standard path on the logged-in page. If any of the navigation or login actions raises,
      the error escapes and the standard path never runs. */
  function LoginExtract(b: Page, t: Trace, c: Config): (r: Run<Output>)
    ensures c.url.None? ==> r == Run(Err(MissingKey("url")), t)
    ensures c.url.Some? ==>
      var prelude := t + [Goto(c.url.value)] + LoginSteps(c.login);
      && (AllPassed(b, t, prelude) ==> r == StandardExtract(b, prelude, c))
      && (!AllPassed(b, t, prelude) ==>
            r.result.Err? && r.result.error.DriverError? && IsPrefix(r.trace, prelude))
  {
    match c.url
    case None => Run(Err(MissingKey("url")), t)
    case Some(url) =>
      var actions := [Goto(url)] + LoginSteps(c.login);
      var prelude := t + [Goto(url)] + LoginSteps(c.login);
      assert prelude == t + actions;
      var pre := Perform(b, t, actions);
      if pre.result.Err? then
        assert !AllPassed(b, t, prelude) by {
          if AllPassed(b, t, prelude) {
            PerformSucceeds(b, t, actions);
          }
        }
        Run(Err(pre.result.error), pre.trace)
      else
        PerformPassed(b, t, actions);
        StandardExtract(b, pre.trace, c)
  }

  /** Dispatching to `login_extract` without credentials is the standard path after one
      extra visit of the page. */
  lemma LoginWithoutCredentials(b: Page, t: Trace, c: Config, url: string)
    requires c.url == Some(url) && LoginSteps(c.login) == []
    requires b.perform(t, Goto(url)).Got?
    ensures Extract(b, t, c, Some(LoginExtract)) == StandardExtract(b, t + [Goto(url)], c)
  {
    assert t + [Goto(url)] + LoginSteps(c.login) == t + [Goto(url)];
    assert (t + [Goto(url)])[..|t|] == t;
  }
}

=== FILE: text.dfy ===
/** The two string operations the scraper relies on: `str.strip()` and `str.lower()`. */
module Text {

  /** Python's `str.isspace()` characters: the ASCII whitespace and separators plus the
      Unicode space characters, the fixed set `str.strip()` removes. */
  predicate IsSpace(c: char) {
    || c == ' ' || c == '\t' || c == '\n' || c == '\r'
    || c == '\U{0B}' || c == '\U{0C}'
    || ('\U{1C}' <= c <= '\U{1F}')
    || c == '\U{85}' || c == '\U{A0}' || c == '\U{1680}'
    || ('\U{2000}' <= c <= '\U{200A}')
    || c == '\U{2028}' || c == '\U{2029}' || c == '\U{202F}' || c == '\U{205F}' || c == '\U{3000}'
  }

  predicate AllSpace(s: string) {
    forall i :: 0 <= i < |s| ==> IsSpace(s[i])
  }

  /** Neither the first nor the last character is whitespace: what `strip()` leaves. */
  predicate Stripped(s: string) {
    s == [] || (!IsSpace(s[0]) && !IsSpace(s[|s| - 1]))
  }

  /** How many whitespace characters `s` starts with. */
  function LeadingSpace(s: string): (n: nat)
    ensures n <= |s| && AllSpace(s[..n])
    ensures n < |s| ==> !IsSpace(s[n])
  {
    if s != [] && IsSpace(s[0]) then 1 + LeadingSpace(s[1..]) else 0
  }

  /** How many whitespace characters `s` ends with. */
  function TrailingSpace(s: string): (n: nat)
    ensures n <= |s| && AllSpace(s[|s| - n..])
    ensures n < |s| ==> !IsSpace(s[|s| - n - 1])
  {
    if s != [] && IsSpace(s[|s| - 1]) then 1 + TrailingSpace(s[..|s| - 1]) else 0
  }

  /** `s.strip()`: `s` with its leading and trailing whitespace removed. The result is the
      piece of `s` that starts right after the leading whitespace, has no whitespace at
      either end, and is followed only by whitespace. */
  function Strip(s: string): (r: string)
    ensures Stripped(r)
    ensures LeadingSpace(s) + |r| <= |s|
    ensures r == s[LeadingSpace(s)..LeadingSpace(s) + |r|]
    ensures AllSpace(s[LeadingSpace(s) + |r|..])
  {
    var n := LeadingSpace(s);
    var rest := s[n..];
    var m := TrailingSpace(rest);
    var r := rest[..|rest| - m];
    assert r == s[n..n + |r|];
    assert s[n + |r|..] == rest[|rest| - m..];
    assert r != [] ==> r[0] == s[n] && r[|r| - 1] == rest[|rest| - m - 1];
    r
  }

  lemma {:induction false} LeadingSpaceSkips(a: string, rest: string)
    requires AllSpace(a)
    requires rest == [] || !IsSpace(rest[0])
    ensures LeadingSpace(a + rest) == |a|
    decreases |a|
  {
    if a == [] {
      assert a + rest == rest;
    } else {
      assert (a + rest)[0] == a[0];
      assert (a + rest)[1..] == a[1..] + rest;
      LeadingSpaceSkips(a[1..], rest);
    }
  }

  lemma {:induction false} TrailingSpaceSkips(m: string, z: string)
    requires AllSpace(z)
    requires m == [] || !IsSpace(m[|m| - 1])
    ensures TrailingSpace(m + z) == |z|
    decreases |z|
  {
    if z == [] {
      assert m + z == m;
    } else {
      var mz := m + z;
      assert mz[|mz| - 1] == z[|z| - 1];
      assert mz[..|mz| - 1] == m + z[..|z| - 1];
      TrailingSpaceSkips(m, z[..|z| - 1]);
    }
  }

  /** `strip()` is fully determined by its contract: whatever lies between a run of leading
      whitespace and a run of trailing whitespace, with no whitespace at its own ends, is
      exactly what `strip()` returns. */
  lemma StripUnique(a: string, m: string, z: string)
    requires AllSpace(a) && AllSpace(z) && Stripped(m)
    ensures Strip(a + m + z) == m
  {
    var s := a + m + z;
    if m == [] {
      assert s == (a + z) + [];
      assert AllSpace(a + z);
      LeadingSpaceSkips(a + z, []);
    } else {
      assert s == a + (m + z);
      assert (m + z)[0] == m[0];
      LeadingSpaceSkips(a, m + z);
      assert s[|a|..] == m + z;
      TrailingSpaceSkips(m, z);
      assert (m + z)[..|m|] == m;
    }
  }

  /** A text with no whitespace at its ends is left alone. */
  lemma StripKeepsStripped(x: string)
    requires Stripped(x)
    ensures Strip(x) == x
  {
    assert [] + x + [] == x;
    StripUnique([], x, []);
  }

  /** Stripping twice is stripping once. */
  lemma StripIdempotent(s: string)
    ensures Strip(Strip(s)) == Strip(s)
  {
    StripKeepsStripped(Strip(s));
  }

  /** Stripping removes one blank on each side of a stripped string, and leaves a
      stripped string alone. */
  lemma StripPadded(x: string)
    requires Stripped(x)
    ensures Strip(" " + x + " ") == x && Strip(x) == x
  {
    StripUnique(" ", x, " ");
    StripKeepsStripped(x);
  }

  /** ASCII lower-casing of one character. */
  function LowerChar(c: char): char {
    if 'A' <= c <= 'Z' then (c as int + 32) as char else c
  }

  /** `s.lower()`, restricted to ASCII letters. */
  function Lower(s: string): string {
    seq(|s|, i requires 0 <= i < |s| => LowerChar(s[i]))
  }
}

=== FILE: wrappers.dfy ===
/** Option and Result types, and the errors the modelled scraper raises. */
module Wrappers {

  /** A value that may be absent: `None` plays Python's `None` and a missing key. */
  datatype Option<+T> = None | Some(value: T) {

    /** The held value, falling back to `default` when absent (Python's `dict.get(key, default)`). */
    function GetOr(default: T): T {
      match this
      case Some(v) => v
      case None => default
    }
  }

  /** An exception that escapes an operation of the scraper. */
  datatype Error =
    | MissingKey(key: string)                // `KeyError` from `config["..."]`
    | DriverError(message: string)           // anything the browser raised
    | UnsupportedFormat(requested: string)   // the `ValueError` of the output formatter

  /** The message `str(e)` carries for each kind of error. */
  function Message(e: Error): string {
    match e
    case MissingKey(k) => "'" + k + "'"
    case DriverError(m) => m
    case UnsupportedFormat(f) => "Unsupported output format: " + f
  }

  /** Either a value or the error that was raised instead. */
  datatype Result<+T> = Ok(value: T) | Err(error: Error)
}
